=== FILE: README.md ===
# FaceRecognizer core, modelled in Dafny

This project models the self-contained logic of the FaceRecognizer
application (a webcam face detector and recogniser built on OpenCV, Swing and
JPA) and proves properties of it. The model covers five parts:

- **Detector** (`detection.dfy`, module `Detection`). `detect` runs a cascade
  classifier, then walks its rectangles in order. It keeps a rectangle only
  when no rectangle kept so far contains it. `detectFaces` and `detectEyes`
  apply this filter to the face and eye classifiers.
- **Centred crop** (`crop.dfy`, module `Crop`). `Utils.fit` takes a region of
  the requested size centred in an image. Offsets use Java's truncating
  integer division.
- **Person** (`people.dfy`, module `People`). `HumanEntity` holds a
  duplicate-free face list. `addFace` adds a face only if it is absent, and
  `deleteFace` removes the first occurrence.
- **Person service** (`human_service.dfy`, module `HumanService`).
  `HumanServiceImpl` works over a repository modelled as a map from generated
  id to person. It has `get`, find-or-create by name, and the null-guarded
  face operations.
- **Recogniser** (`recognition.dfy`, module `Recognition`). `init` builds an
  index-aligned corpus of images and labels from every stored face, then
  replaces the model with a freshly trained one. `recognize` answers `-1`
  when the library's distance exceeds 60.

Shared pieces: `optional.dfy` defines `Option` and `Result`, which stand for
Java's `null` and exceptions. `geometry.dfy` defines rectangles and image sizes.

Foreign code becomes function parameters, so every property holds for every
possible behaviour of that code. Those parameters are:

- the classifier's `detectMultiScale` output;
- the `Utils.contains` containment test, whose definition is not part of this model;
- LBPH `train` and `predict`;
- image decoding, where reading the stored content gives an image, an SQL
  error or an IO error;
- the BGR-to-grey conversion.

Failure paths of the recognizer, as the code's statement order fixes them:

- Before `init`, `recognize` dereferences an unset model reference
  (Recognizer.java:80) and throws. The model returns
  `Failure(ModelNotInitialized)`.
- `init` stores a fresh LBPH model in the reference (Recognizer.java:63)
  before training it (Recognizer.java:64). When training throws, for
  instance on an empty face store, the previous model is already gone. The
  model's state is then `Untrained`, and `recognize` fails.
- An exception inside the loop over stored faces (Recognizer.java:57-61)
  happens before line 63, so the previous model stays. Such an exception is
  a missing owner or a null image from an unreadable face.

The modelled files contain no eye pairing and no mapping of rectangles back
from a rotated frame. The rotate, detect and rotate-back loop of `MainClass`
(MainClass.java:113-124) is left out with the rest of `MainClass`.

## Model

| member | source | states |
|---|---|---|
| Detection.Detect | src/main/java/com/mishagrodno/faceRecognizer/application/Detector.java:61-69 | The loop keeps exactly the rectangles of the greedy filter, in order. No kept rectangle contains one kept after it. |
| Detection.NoneMatch | src/main/java/com/mishagrodno/faceRecognizer/application/Detector.java:64 | `noneMatch` is true iff no kept rectangle contains the candidate. |
| Detection.Filter | src/main/java/com/mishagrodno/faceRecognizer/application/Detector.java:61-69 | The filtered list is never longer than the classifier's list. |
| Detection.KeptIndicesDescribeFilter | src/main/java/com/mishagrodno/faceRecognizer/application/Detector.java:61-69 | The output is a subsequence of the input: it is the input read at strictly increasing positions, so the original order is kept. |
| Detection.KeptIff | src/main/java/com/mishagrodno/faceRecognizer/application/Detector.java:64-65 | A rectangle is kept iff no rectangle kept before it contains it. |
| Detection.FilterOfPrefix | src/main/java/com/mishagrodno/faceRecognizer/application/Detector.java:61-69 | Filtering a prefix of the input gives a prefix of the full output and of its kept positions: earlier decisions never change. |
| Detection.FirstAlwaysKept | src/main/java/com/mishagrodno/faceRecognizer/application/Detector.java:63-66 | On non-empty input the first rectangle is always kept and comes first in the output. The output length is between 1 and the input length. |
| Detection.DroppedIsCovered | src/main/java/com/mishagrodno/faceRecognizer/application/Detector.java:64 | Every dropped rectangle is contained in a kept rectangle that precedes it in the input. |
| Detection.KeptAreUncontainedByEarlier | src/main/java/com/mishagrodno/faceRecognizer/application/Detector.java:64-65 | No kept rectangle contains any rectangle kept after it. |
| Detection.LaterContainerKept | src/main/java/com/mishagrodno/faceRecognizer/application/Detector.java:64 | Only one direction is checked. On the two-rectangle input [inner, outer], where outer contains inner but not the reverse, both are kept. On longer inputs a third kept rectangle may still drop outer. |
| Detection.FacesAndEyesShareFilter | src/main/java/com/mishagrodno/faceRecognizer/application/Detector.java:47-53 | `detectFaces` and `detectEyes` run the same filter. Swapping the two classifiers swaps the results. |
| Crop.TruncDiv | src/main/java/com/mishagrodno/faceRecognizer/application/Utils.java:90-91 | Java division by a positive divisor: the remainder lies strictly between minus the divisor and the divisor, with the dividend's sign. |
| Crop.CropRect | src/main/java/com/mishagrodno/faceRecognizer/application/Utils.java:90-92 | The rectangle has exactly the requested size. When the size fits, twice each offset is at most the surplus and at least the surplus minus one. |
| Crop.Fit | src/main/java/com/mishagrodno/faceRecognizer/application/Utils.java:89-94 | A successful crop lies inside the image and has the requested size. A failure reports a region outside the image. |
| Crop.FitSucceedsIff | src/main/java/com/mishagrodno/faceRecognizer/application/Utils.java:89-94 | The crop can be taken iff 0 <= width <= image width and 0 <= height <= image height. |
| Crop.FitIsCentred | src/main/java/com/mishagrodno/faceRecognizer/application/Utils.java:90-91 | The far margin equals the near margin or exceeds it by one pixel, both horizontally and vertically. |
| Crop.FitOfExactSize | src/main/java/com/mishagrodno/faceRecognizer/application/Utils.java:90-92 | An image already of the requested size is cropped to itself, from (0,0). |
| Crop.OversizedRequest | src/main/java/com/mishagrodno/faceRecognizer/application/Utils.java:90-93 | A request one pixel too wide gets offset 0 under truncation. A request two or more pixels too wide gets a negative offset. Either way the crop overruns the image and fails. |
| People.NewHuman | src/main/java/com/mishagrodno/faceRecognizer/db/entity/HumanEntity.java:21-27 | A new person carries its name and starts with an empty face list. |
| People.AddFace | src/main/java/com/mishagrodno/faceRecognizer/db/entity/HumanEntity.java:73-77 | The face ends up in the list. Earlier faces are untouched. The list grows by at most one and stays duplicate-free. |
| People.AddFaceIdempotent | src/main/java/com/mishagrodno/faceRecognizer/db/entity/HumanEntity.java:74-76 | Adding a face already present changes nothing, so adding twice is the same as adding once. |
| People.RemoveFirst | src/main/java/com/mishagrodno/faceRecognizer/db/entity/HumanEntity.java:85 | Removal takes one copy of the face out of the multiset of faces. The length drops by one iff the face was present. An absent face changes nothing. |
| People.DeleteFace | src/main/java/com/mishagrodno/faceRecognizer/db/entity/HumanEntity.java:84-86 | The name is kept, and exactly one occurrence of the face is removed from the multiset of faces. |
| People.RemoveFirstSplits | src/main/java/com/mishagrodno/faceRecognizer/db/entity/HumanEntity.java:85 | Removal at the first occurrence keeps everything before and after it, in order. |
| People.DeleteFaceRemovesFirst | src/main/java/com/mishagrodno/faceRecognizer/db/entity/HumanEntity.java:84-86 | `deleteFace` removes only the first occurrence and keeps the order of the rest. An absent face leaves the person unchanged. |
| People.DeleteFaceKeepsDistinct | src/main/java/com/mishagrodno/faceRecognizer/db/entity/HumanEntity.java:84-86 | On a duplicate-free list, deletion keeps the list duplicate-free and leaves no copy of the face. |
| People.DeleteUndoesAdd | src/main/java/com/mishagrodno/faceRecognizer/db/entity/HumanEntity.java:73-86 | Adding an absent face and then deleting it restores the person. |
| HumanService.FindByName | src/main/java/com/mishagrodno/faceRecognizer/db/repository/HumanRepository.java:19 | Not found iff nobody carries the name. Ambiguous iff two persons carry it. Otherwise the result is the single person carrying it. |
| HumanService.Save | src/main/java/com/mishagrodno/faceRecognizer/db/service/impl/HumanServiceImpl.java:32-34 | Saving a new person stores it under a freshly generated id. All other entries are unchanged, and every stored id stays below the next id. |
| HumanService.Get | src/main/java/com/mishagrodno/faceRecognizer/db/service/impl/HumanServiceImpl.java:40-42 | The result is null iff the id is not stored; otherwise it is the stored person. |
| HumanService.GetOrCreate | src/main/java/com/mishagrodno/faceRecognizer/db/service/impl/HumanServiceImpl.java:45-54 | An existing name returns its person and saves nothing. An unknown name stores exactly one new, faceless person with that name under a fresh id. The call fails iff two persons already share the name. |
| HumanService.GetOrCreateTwice | src/main/java/com/mishagrodno/faceRecognizer/db/service/impl/HumanServiceImpl.java:45-54 | A second call with the same name returns the same person and changes nothing. |
| HumanService.GetOrCreateKeepsNamesUnique | src/main/java/com/mishagrodno/faceRecognizer/db/service/impl/HumanServiceImpl.java:45-54 | On a repository with unique names the call always succeeds, and names stay unique. |
| HumanService.GetFindsCreated | src/main/java/com/mishagrodno/faceRecognizer/db/service/impl/HumanServiceImpl.java:40-54 | `get` under the returned id finds a person carrying the requested name. |
| HumanService.GetOfUnknown | src/main/java/com/mishagrodno/faceRecognizer/db/service/impl/HumanServiceImpl.java:40-42 | Looking up the recogniser's "unknown" answer, -1, finds nobody. |
| HumanService.AddFaceTo | src/main/java/com/mishagrodno/faceRecognizer/db/service/impl/HumanServiceImpl.java:76-80 | A null person stays null. Otherwise the face is added as by the person's `addFace`, and the name is kept. |
| HumanService.RemoveFaceFrom | src/main/java/com/mishagrodno/faceRecognizer/db/service/impl/HumanServiceImpl.java:86-90 | A null person stays null. Otherwise the face is removed as by the person's `deleteFace`, and the name is kept. |
| Recognition.ToInt32 | src/main/java/com/mishagrodno/faceRecognizer/application/Recognizer.java:60 | `intValue` gives a 32-bit signed value congruent to the id modulo 2^32. An id already in range is kept. |
| Recognition.FaceToMat | src/main/java/com/mishagrodno/faceRecognizer/application/Recognizer.java:91-105 | The result is null iff reading the content fails with an SQL or IO error. Otherwise it is the grey version of the decoded image. |
| Recognition.BuildCorpus | src/main/java/com/mishagrodno/faceRecognizer/application/Recognizer.java:52-61 | If every face decodes and has an owner, there is one image and one label per face, aligned: the i-th label is the 32-bit `intValue` of the i-th face's owner id. Otherwise the loop stops at the first face that fails. It reports an unreadable image if that face's image is null, and a missing owner otherwise. |
| Recognition.Init | src/main/java/com/mishagrodno/faceRecognizer/application/Recognizer.java:50-65 | A failure while building the corpus keeps the previous model. Once the corpus is built, a failed training leaves a fresh, untrained model. A successful training leaves the model trained on the whole current corpus. |
| Recognition.Gate | src/main/java/com/mishagrodno/faceRecognizer/application/Recognizer.java:82 | Confidence above 60 gives -1. Confidence up to and including 60 gives the predicted label. |
| Recognition.Recognize | src/main/java/com/mishagrodno/faceRecognizer/application/Recognizer.java:73-83 | Fails iff no model has been trained: the reference is unset, or it holds an untrained model. Otherwise it gives -1 above the threshold and the predicted label at or below it. |
| Recognition.CorpusAligned | src/main/java/com/mishagrodno/faceRecognizer/application/Recognizer.java:54-61 | The label count equals the corpus size. For an owner id within int range, the i-th label is the i-th face's owner id, next to that face's grey image. |
| Recognition.UnreadableFaceAbortsInit | src/main/java/com/mishagrodno/faceRecognizer/application/Recognizer.java:57-59 | An unreadable face preceded only by usable faces (decoded, with an owner) stops `init` there, and the previous model stays. |
| Recognition.InitDiscardsPrevious | src/main/java/com/mishagrodno/faceRecognizer/application/Recognizer.java:63-64 | Once the corpus is built, the state after `init` does not depend on the model that was there before. |
| Recognition.FailedTrainingDropsModel | src/main/java/com/mishagrodno/faceRecognizer/application/Recognizer.java:63-64 | When training throws, the previous model is lost. The reference holds an untrained model, and every later `recognize` fails. |
| Recognition.EmptyStoreLeavesUntrained | src/main/java/com/mishagrodno/faceRecognizer/application/Recognizer.java:50-65 | With no stored faces, and training that rejects empty data, `init` leaves an untrained model and `recognize` fails. |
| Recognition.RecognizeAfterInit | src/main/java/com/mishagrodno/faceRecognizer/application/Recognizer.java:50-83 | After a successful `init`, `recognize` answers from the freshly trained model through the gate. |
| Recognition.GateAcceptsIff | src/main/java/com/mishagrodno/faceRecognizer/application/Recognizer.java:82 | For a label other than -1, the predicted label is returned iff confidence is at most 60. The boundary 60 is accepted and 60.5 is rejected. |

## Left out

- `Detector.createClassifier` and `init`: they extract resources and load files. Classifiers enter as functions from image to rectangles.
- `detectMultiScale` internals and its tuning arguments are foreign. Its output is an input sequence.
- `Utils.contains` is not part of this model. The filter takes it as a parameter, so no property relies on its definition.
- Crop.Fit: the bounds check on the region of interest belongs to OpenCV's `Mat(Mat, Rect)` constructor. It is modelled as a failure result, not as a thrown assertion.
- `Utils.rotate`, `mirrow`, the `convert*` helpers and `safeDelete` are floating-point warps, OpenCV calls and file I/O.
- Recognition.Init: LBPH `train` is a parameter that may fail, for any corpus it chooses. That an empty corpus fails is LBPH's own rule, so `EmptyStoreLeavesUntrained` takes it as a hypothesis. The startup caller catches only `IOException`, so the exception from training escapes; that is not modelled.
- Recognition.BuildCorpus: an unreadable face's null image makes `MatVector.push_back` throw. That is the JavaCPP binding's null check on a by-reference argument, taken here as an assumption about foreign code.
- Recognition.FaceToMat: `ImageIO.read` can return null for an unknown format. What the conversion then does is foreign, so decoding is modelled only as success, SQL error or IO error.
- Recognition.Recognize: confidence is a `real`, so NaN and other floating-point effects of the `double` comparison are not modelled. The confidence is read from `new DoublePointer(0)` (Recognizer.java:79), which Java's overload resolution makes `DoublePointer(long size)`, a native buffer of length zero; the model assumes that `predict` (Recognizer.java:80) nevertheless delivers the written distance, an assumption about the JavaCPP binding.
- The recogniser is shared between the frame loop and the reload button's callback, using an `isInitialization` flag. That concurrency is not modelled; each operation is a pure state transition.
- `HumanServiceImpl.delete` and `all` are not modelled. They are one-line delegations to the repository that no modelled operation uses.
- HumanService.FindByName: when several persons share a name, the repository throws. This is modelled as an `Ambiguous` lookup, and `getOrCreate` then fails.
- JPA persistence is not modelled: dirty checking, entity identity across sessions, and the write-back of in-place changes made by `addFace`/`removeFace`. The service's face operations return the updated person instead.
- `FaceServiceImpl`, `FaceEntity`, `BaseEntity` and the repository interfaces are persistence boilerplate. Face ids and person ids become plain numbers.
- `MainClass`, `MainForm`, `DeepLearningFaceDetection` and the application bootstrap are camera, Swing, DNN and Spring code.

=== FILE: crop.dfy ===
/** `Utils.fit`: a rectangle of a requested size centred in a larger image,
    computed with Java's truncating integer division. */
module Crop {
  import opened Geometry
  import opened Optional

  /** Java's `int` division by a positive divisor: rounds toward zero, so the
      remainder takes the sign of the dividend (Dafny's `/` rounds down). */
  function TruncDiv(a: int, b: int): (q: int)
    requires b > 0
    ensures a >= 0 ==> 0 <= a - q * b < b
    ensures a < 0 ==> -b < a - q * b <= 0
  {
    if a >= 0 then a / b else -((-a) / b)
  }

  /** The rectangle `fit` asks for: offsets half the surplus in each direction. */
  function CropRect(image: Size, width: int, height: int): (r: Rect)
    ensures r.width == width && r.height == height
    ensures 0 <= image.width - width ==> 0 <= 2 * r.x <= image.width - width <= 2 * r.x + 1
    ensures 0 <= image.height - height ==> 0 <= 2 * r.y <= image.height - height <= 2 * r.y + 1
  {
    Rect(TruncDiv(image.width - width, 2), TruncDiv(image.height - height, 2), width, height)
  }

  /** Why a region of interest cannot be taken. */
  datatype CropError = OutsideImage(region: Rect)

  /** `fit`: the region of interest of `image` with the requested size, centred.
      The region-of-interest constructor rejects a rectangle that does not lie
      within the image; that rejection is the failure result. */
  function Fit(image: Size, width: int, height: int): (r: Result<Rect, CropError>)
    ensures r.Success? ==> Inside(r.value, image) && r.value.width == width && r.value.height == height
    ensures r.Failure? ==> !Inside(r.error.region, image)
  {
    var region := CropRect(image, width, height);
    if Inside(region, image) then Success(region) else Failure(OutsideImage(region))
  }

  /** The crop can be taken exactly when the requested size fits in the image. */
  lemma FitSucceedsIff(image: Size, width: int, height: int)
    ensures Fit(image, width, height).Success? <==> 0 <= width <= image.width && 0 <= height <= image.height
  {
    var region := CropRect(image, width, height);
    if width > image.width {
      assert region.x + width > image.width;
    }
    if height > image.height {
      assert region.y + height > image.height;
    }
  }

  /** The crop is centred: its left and right margins, and its top and bottom
      margins, differ by at most one pixel, the extra pixel on the far side. */
  lemma FitIsCentred(image: Size, width: int, height: int)
    requires Fit(image, width, height).Success?
    ensures var r := Fit(image, width, height).value;
      && 0 <= (image.width - r.width - r.x) - r.x <= 1
      && 0 <= (image.height - r.height - r.y) - r.y <= 1
  {
  }

  /** When the image already has the requested size, the crop is the whole image. */
  lemma FitOfExactSize(image: Size)
    ensures Fit(image, image.width, image.height) == Success(Rect(0, 0, image.width, image.height))
  {
  }

  /** Truncating division makes a request one pixel wider than the image start
      at offset 0 rather than -1, and the crop still overruns the right edge;
      a request two or more pixels wider gives a negative offset. */
  lemma OversizedRequest(image: Size, width: int, height: int)
    requires width > image.width
    ensures width == image.width + 1 ==> CropRect(image, width, height).x == 0
    ensures width >= image.width + 2 ==> CropRect(image, width, height).x < 0
    ensures CropRect(image, width, height).x + width > image.width
    ensures Fit(image, width, height).Failure?
  {
    FitSucceedsIff(image, width, height);
  }
}

=== FILE: detection.dfy ===
/** The detector: runs a cascade classifier over an image and drops every
    detection that an already kept detection contains. */
module Detection {
  import opened Geometry

  /** The containment test consulted by the filter (`Utils.contains`, whose
      definition is not part of this model): `contains(outer, inner)`. */
  type Containment = (Rect, Rect) -> bool

  /** A cascade classifier's multi-scale detection, as a pure function of the
      image (scale factor 1.1, 5 neighbours, sizes up to the whole image). */
  type Classifier<!Img> = Img -> seq<Rect>

  /** The two classifiers a Detector is built with. */
  datatype Detector<!Img> = Detector(eyeClassifier: Classifier<Img>, faceClassifier: Classifier<Img>)

  /** No rectangle of `kept` contains `r`. */
  predicate NoneContains(kept: seq<Rect>, r: Rect, contains: Containment)
  {
    forall k :: 0 <= k < |kept| ==> !contains(kept[k], r)
  }

  /** The greedy filter, defined on prefixes: the last rectangle is appended
      to the filtered prefix exactly when no rectangle kept so far contains it. */
  function Filter(rects: seq<Rect>, contains: Containment): (kept: seq<Rect>)
    ensures |kept| <= |rects|
    decreases |rects|
  {
    if |rects| == 0 then []
    else
      var prior := Filter(rects[..|rects| - 1], contains);
      if NoneContains(prior, rects[|rects| - 1], contains) then prior + [rects[|rects| - 1]] else prior
  }

  /** The positions in `rects` of the rectangles Filter keeps. */
  function KeptIndices(rects: seq<Rect>, contains: Containment): seq<nat>
    decreases |rects|
  {
    if |rects| == 0 then []
    else
      var prior := KeptIndices(rects[..|rects| - 1], contains);
      if NoneContains(Filter(rects[..|rects| - 1], contains), rects[|rects| - 1], contains)
      then prior + [|rects| - 1]
      else prior
  }

  /** `detectFaces`: the filter over the face classifier's detections. */
  function DetectFaces<Img>(d: Detector<Img>, image: Img, contains: Containment): seq<Rect>
  {
    Filter(d.faceClassifier(image), contains)
  }

  /** `detectEyes`: the filter over the eye classifier's detections. */
  function DetectEyes<Img>(d: Detector<Img>, image: Img, contains: Containment): seq<Rect>
  {
    Filter(d.eyeClassifier(image), contains)
  }

  /** The stream's `noneMatch` over the kept list. */
  method NoneMatch(kept: seq<Rect>, r: Rect, contains: Containment) returns (none: bool)
    ensures none <==> NoneContains(kept, r, contains)
  {
    none := true;
    var k := 0;
    while k < |kept|
      invariant 0 <= k <= |kept|
      invariant none <==> forall j :: 0 <= j < k ==> !contains(kept[j], r)
    {
      if contains(kept[k], r) {
        none := false;
      }
      k := k + 1;
    }
  }

  /** The loop of `detect`: walks the classifier's rectangles in order and keeps
      each one that no already kept rectangle contains. */
  method Detect(rects: seq<Rect>, contains: Containment) returns (kept: seq<Rect>)
    ensures kept == Filter(rects, contains)
    ensures forall k, l :: 0 <= k < l < |kept| ==> !contains(kept[k], kept[l])
  {
    kept := [];
    var i := 0;
    while i < |rects|
      invariant 0 <= i <= |rects|
      invariant kept == Filter(rects[..i], contains)
      invariant forall k, l :: 0 <= k < l < |kept| ==> !contains(kept[k], kept[l])
    {
      assert rects[..i + 1][..i] == rects[..i];
      var none := NoneMatch(kept, rects[i], contains);
      if none {
        kept := kept + [rects[i]];
      }
      i := i + 1;
    }
    assert rects[..|rects|] == rects;
  }

  /** The kept positions pick out the filter's output, in increasing order,
      so the output is a subsequence of the input in the input's order. */
  lemma {:induction false} KeptIndicesDescribeFilter(rects: seq<Rect>, contains: Containment)
    ensures |KeptIndices(rects, contains)| == |Filter(rects, contains)|
    ensures forall k :: 0 <= k < |KeptIndices(rects, contains)| ==>
      KeptIndices(rects, contains)[k] < |rects| && Filter(rects, contains)[k] == rects[KeptIndices(rects, contains)[k]]
    ensures forall k, l :: 0 <= k < l < |KeptIndices(rects, contains)| ==>
      KeptIndices(rects, contains)[k] < KeptIndices(rects, contains)[l]
    decreases |rects|
  {
    if |rects| > 0 {
      var p := rects[..|rects| - 1];
      KeptIndicesDescribeFilter(p, contains);
      var idx, out := KeptIndices(rects, contains), Filter(rects, contains);
      forall k | 0 <= k < |KeptIndices(p, contains)|
        ensures idx[k] == KeptIndices(p, contains)[k] && out[k] == rects[idx[k]]
      {
        assert p[KeptIndices(p, contains)[k]] == rects[KeptIndices(p, contains)[k]];
      }
    }
  }

  /** A rectangle is kept iff no rectangle kept before reaching it contains it. */
  lemma {:induction false} KeptIff(rects: seq<Rect>, i: nat, contains: Containment)
    requires i < |rects|
    ensures i in KeptIndices(rects, contains) <==> NoneContains(Filter(rects[..i], contains), rects[i], contains)
    decreases |rects|
  {
    var p := rects[..|rects| - 1];
    if i < |rects| - 1 {
      KeptIff(p, i, contains);
      assert p[..i] == rects[..i];
    } else {
      assert p == rects[..i];
      KeptIndicesDescribeFilter(p, contains);
      assert i !in KeptIndices(p, contains);
    }
  }

  /** Filtering a prefix yields a prefix of the filtered whole, for both the
      kept rectangles and their positions. */
  lemma {:induction false} FilterOfPrefix(rects: seq<Rect>, i: nat, contains: Containment)
    requires i <= |rects|
    ensures Filter(rects[..i], contains) <= Filter(rects, contains)
    ensures KeptIndices(rects[..i], contains) <= KeptIndices(rects, contains)
    decreases |rects|
  {
    if i < |rects| {
      var p := rects[..|rects| - 1];
      FilterOfPrefix(p, i, contains);
      assert p[..i] == rects[..i];
    } else {
      assert rects[..i] == rects;
    }
  }

  /** The output is never longer than the input, and the first rectangle, if
      any, is always kept: the kept list is empty when it is examined. */
  lemma FirstAlwaysKept(rects: seq<Rect>, contains: Containment)
    requires |rects| > 0
    ensures 0 < |Filter(rects, contains)| <= |rects|
    ensures Filter(rects, contains)[0] == rects[0]
  {
    FilterOfPrefix(rects, 1, contains);
    assert rects[..1][..0] == [];
  }

  /** Every dropped rectangle is contained in a kept rectangle that precedes
      it in the input. */
  lemma DroppedIsCovered(rects: seq<Rect>, i: nat, contains: Containment)
    requires i < |rects| && i !in KeptIndices(rects, contains)
    ensures exists j :: j in KeptIndices(rects, contains) && j < i && contains(rects[j], rects[i])
  {
    KeptIff(rects, i, contains);
    var prior := Filter(rects[..i], contains);
    var m :| 0 <= m < |prior| && contains(prior[m], rects[i]);
    KeptIndicesDescribeFilter(rects[..i], contains);
    FilterOfPrefix(rects, i, contains);
    var j := KeptIndices(rects[..i], contains)[m];
    assert j == KeptIndices(rects, contains)[m];
    assert rects[..i][j] == rects[j];
  }

  /** No kept rectangle contains a rectangle kept after it. */
  lemma {:induction false} KeptAreUncontainedByEarlier(rects: seq<Rect>, contains: Containment)
    ensures forall k, l :: 0 <= k < l < |Filter(rects, contains)| ==>
      !contains(Filter(rects, contains)[k], Filter(rects, contains)[l])
    decreases |rects|
  {
    if |rects| > 0 {
      KeptAreUncontainedByEarlier(rects[..|rects| - 1], contains);
    }
  }

  /** Only one direction is checked. On the two-rectangle input [inner, outer],
      where outer contains inner but not the reverse, both are kept. On longer
      inputs outer can still be dropped, by some other kept rectangle that
      contains it. */
  lemma LaterContainerKept(inner: Rect, outer: Rect, contains: Containment)
    requires contains(outer, inner) && !contains(inner, outer)
    ensures Filter([inner, outer], contains) == [inner, outer]
  {
    assert [inner, outer][..1] == [inner];
    assert [inner][..0] == [];
  }

  /** `detectFaces` and `detectEyes` run the same filter and differ only in the
      classifier consulted: swapping the classifiers swaps the two results. */
  lemma FacesAndEyesShareFilter<Img>(eyes: Classifier<Img>, faces: Classifier<Img>, image: Img, contains: Containment)
    ensures DetectEyes(Detector(eyes, faces), image, contains) == DetectFaces(Detector(faces, eyes), image, contains)
    ensures DetectFaces(Detector(eyes, faces), image, contains) == Filter(faces(image), contains)
    ensures DetectEyes(Detector(eyes, faces), image, contains) == Filter(eyes(image), contains)
  {
  }
}

=== FILE: geometry.dfy ===
/** Axis-aligned integer rectangles, as OpenCV's Rect. */
module Geometry {

  datatype Rect = Rect(x: int, y: int, width: int, height: int)

  /** The dimensions of an image (a Mat's size). */
  datatype Size = Size(width: nat, height: nat)

  /** `r` is a non-negative-sized region lying wholly within an image of size `s`. */
  predicate Inside(r: Rect, s: Size)
  {
    && 0 <= r.x && 0 <= r.width && r.x + r.width <= s.width
    && 0 <= r.y && 0 <= r.height && r.y + r.height <= s.height
  }
}

=== FILE: human_service.dfy ===
/** `HumanServiceImpl`: lookup, find-or-create by name, and the null-guarded
    face operations, over a repository of persons keyed by generated id. */
module HumanService {
  import opened Optional
  import opened People

  /** The person table: stored persons by id, and the next id the identity
      column will generate. */
  datatype Repository = Repository(humans: map<nat, Human>, nextId: nat)

  /** Every stored id was generated before `nextId`. */
  predicate Valid(repo: Repository)
  {
    forall id :: id in repo.humans ==> id < repo.nextId
  }

  /** No two stored persons carry the same name. */
  predicate UniqueNames(repo: Repository)
  {
    forall a, b :: a in repo.humans && b in repo.humans && repo.humans[a].name == repo.humans[b].name ==> a == b
  }

  /** Some stored person carries `name`. */
  predicate HasName(repo: Repository, name: string)
  {
    exists id :: id in repo.humans && repo.humans[id].name == name
  }

  /** Two different stored persons carry `name`. */
  predicate SharedName(repo: Repository, name: string)
  {
    exists a, b :: a in repo.humans && b in repo.humans && a != b
      && repo.humans[a].name == name && repo.humans[b].name == name
  }

  /** The outcome of `findByName`: no match, the single match, or several
      matches (which the repository refuses with an exception). */
  datatype Lookup = NotFound | Found(id: nat) | Ambiguous

  /** A person stored by `save`, and the id generated for it. */
  datatype Saved = Saved(repo: Repository, id: nat)

  /** Why a service call failed. */
  datatype ServiceError = NonUniqueName(name: string)

  /** The ids of the persons carrying `name`. */
  function IdsNamed(repo: Repository, name: string): (ids: set<nat>)
    ensures forall id :: id in ids <==> id in repo.humans && repo.humans[id].name == name
  {
    set id | id in repo.humans && repo.humans[id].name == name
  }

  /** The only members of a one-element set are equal. */
  lemma SingletonMembersEqual(ids: set<nat>)
    requires |ids| == 1
    ensures forall a, b :: a in ids && b in ids ==> a == b
  {
    var x :| x in ids;
    assert |ids - {x}| == |ids| - 1 == 0;
    assert ids - {x} == {};
    forall y | y in ids ensures y == x {
      assert y !in ids - {x};
    }
  }

  /** A set of more than one element has two distinct members. */
  lemma TwoMembers(ids: set<nat>)
    requires |ids| >= 2
    ensures exists a, b :: a in ids && b in ids && a != b
  {
    var x :| x in ids;
    assert |ids - {x}| >= 1;
    var y :| y in ids - {x};
  }

  /** `findByName`. */
  function FindByName(repo: Repository, name: string): (l: Lookup)
    ensures l.NotFound? <==> !HasName(repo, name)
    ensures l.Ambiguous? <==> SharedName(repo, name)
    ensures l.Found? ==> l.id in repo.humans && repo.humans[l.id].name == name
    ensures l.Found? ==> forall id :: id in repo.humans && repo.humans[id].name == name ==> id == l.id
  {
    var ids := IdsNamed(repo, name);
    if |ids| == 0 then
      assert ids == {};
      NotFound
    else if |ids| == 1 then
      SingletonMembersEqual(ids);
      var id :| id in ids;
      Found(id)
    else
      TwoMembers(ids);
      Ambiguous
  }

  /** `save` of a new person: the identity column generates the next id. */
  function Save(repo: Repository, h: Human): (s: Saved)
    requires Valid(repo)
    ensures Valid(s.repo)
    ensures s.id !in repo.humans
    ensures s.id in s.repo.humans && s.repo.humans[s.id] == h
    ensures forall id :: id != s.id ==> (id in s.repo.humans <==> id in repo.humans)
    ensures forall id :: id in repo.humans ==> s.repo.humans[id] == repo.humans[id]
  {
    Saved(Repository(repo.humans[repo.nextId := h], repo.nextId + 1), repo.nextId)
  }

  /** `get`: the stored person with that id, or null. */
  function Get(repo: Repository, id: int): (r: Option<Human>)
    ensures r.Some? <==> id >= 0 && id in repo.humans
    ensures r.Some? ==> r.value == repo.humans[id]
  {
    if id >= 0 && id in repo.humans then Some(repo.humans[id]) else None
  }

  /** `getOrCreate`: the person carrying `name`, created and saved with no
      faces when there is none. */
  function GetOrCreate(repo: Repository, name: string): (r: Result<Saved, ServiceError>)
    requires Valid(repo)
    ensures r.Failure? <==> SharedName(repo, name)
    ensures r.Success? ==> Valid(r.value.repo)
    ensures r.Success? ==> r.value.id in r.value.repo.humans && r.value.repo.humans[r.value.id].name == name
    ensures r.Success? && HasName(repo, name) ==> r.value.repo == repo
    ensures r.Success? && !HasName(repo, name) ==>
      && r.value.id !in repo.humans
      && r.value.repo.humans == repo.humans[r.value.id := NewHuman(name)]
  {
    match FindByName(repo, name)
    case Found(id) => Success(Saved(repo, id))
    case NotFound =>
      var s := Save(repo, NewHuman(name));
      Success(s)
    case Ambiguous => Failure(NonUniqueName(name))
  }

  /** `addFace`: nothing for a null person, otherwise the person's `addFace`. */
  function AddFaceTo(face: FaceRef, human: Option<Human>): (r: Option<Human>)
    ensures r.Some? <==> human.Some?
    ensures r.Some? ==> r.value.name == human.value.name && face in r.value.faces
    ensures r.Some? ==> r.value == People.AddFace(human.value, face)
  {
    match human
    case None => None
    case Some(h) => Some(People.AddFace(h, face))
  }

  /** `removeFace`: nothing for a null person, otherwise the person's `deleteFace`. */
  function RemoveFaceFrom(face: FaceRef, human: Option<Human>): (r: Option<Human>)
    ensures r.Some? <==> human.Some?
    ensures r.Some? ==> r.value.name == human.value.name
    ensures r.Some? ==> r.value == People.DeleteFace(human.value, face)
  {
    match human
    case None => None
    case Some(h) => Some(People.DeleteFace(h, face))
  }

  /** Asking twice for the same name creates at most one person and returns it both times. */
  lemma GetOrCreateTwice(repo: Repository, name: string)
    requires Valid(repo) && GetOrCreate(repo, name).Success?
    ensures var first := GetOrCreate(repo, name).value;
      GetOrCreate(first.repo, name) == Success(first)
  {
    var first := GetOrCreate(repo, name).value;
    if !HasName(repo, name) {
      assert !SharedName(first.repo, name) by {
        forall a, b | a in first.repo.humans && b in first.repo.humans
          && first.repo.humans[a].name == name && first.repo.humans[b].name == name
          ensures a == b
        {
          assert a == first.id && b == first.id;
        }
      }
    }
    assert HasName(first.repo, name);
  }

  /** `getOrCreate` always succeeds on a repository whose names are unique,
      and keeps them unique. */
  lemma GetOrCreateKeepsNamesUnique(repo: Repository, name: string)
    requires Valid(repo) && UniqueNames(repo)
    ensures GetOrCreate(repo, name).Success?
    ensures UniqueNames(GetOrCreate(repo, name).value.repo)
  {
    assert !SharedName(repo, name);
  }

  /** The person `getOrCreate` returns is the one `get` finds under its id. */
  lemma GetFindsCreated(repo: Repository, name: string)
    requires Valid(repo) && GetOrCreate(repo, name).Success?
    ensures var s := GetOrCreate(repo, name).value;
      Get(s.repo, s.id).Some? && Get(s.repo, s.id).value.name == name
  {
  }

  /** A negative id, such as the recogniser's "unknown" answer, finds nobody. */
  lemma GetOfUnknown(repo: Repository)
    ensures Get(repo, -1) == None
  {
  }
}

=== FILE: optional.dfy ===
/** Failure-carrying values used across the model in place of Java's null
    returns and thrown exceptions. */
module Optional {

  /** A value that may be absent: Java's nullable reference. */
  datatype Option<+T> = None | Some(value: T)

  /** Either a result or the reason the operation failed. */
  datatype Result<+T, +E> = Success(value: T) | Failure(error: E)
}

=== FILE: people.dfy ===
/** `HumanEntity`: a named person owning a duplicate-free list of faces. */
module People {

  /** A stored face. Faces do not override equality, so a face is compared
      by its object identity only. */
  datatype FaceRef = FaceRef(identity: nat)

  datatype Human = Human(name: string, faces: seq<FaceRef>)

  /** No face occurs twice in `s`. */
  predicate Distinct(s: seq<FaceRef>)
  {
    forall i, j :: 0 <= i < j < |s| ==> s[i] != s[j]
  }

  /** A new person carrying `name`, with no faces yet. */
  function NewHuman(name: string): (h: Human)
    ensures h.name == name && |h.faces| == 0 && Distinct(h.faces)
  {
    Human(name, [])
  }

  /** `addFace`: appends the face unless it is already in the list. */
  function AddFace(h: Human, face: FaceRef): (r: Human)
    ensures r.name == h.name
    ensures face in r.faces
    ensures |h.faces| <= |r.faces| <= |h.faces| + 1
    ensures r.faces[..|h.faces|] == h.faces
    ensures Distinct(h.faces) ==> Distinct(r.faces)
  {
    if face in h.faces then h else h.(faces := h.faces + [face])
  }

  /** `List.remove(Object)`: removes the first occurrence of `x`, if any. */
  function RemoveFirst(s: seq<FaceRef>, x: FaceRef): (r: seq<FaceRef>)
    ensures multiset(r) == multiset(s) - multiset{x}
    ensures x in s ==> |r| == |s| - 1
    ensures x !in s ==> r == s
  {
    if |s| == 0 then []
    else
      assert s == [s[0]] + s[1..];
      if s[0] == x then s[1..] else [s[0]] + RemoveFirst(s[1..], x)
  }

  /** `deleteFace`: removes the first occurrence of the face. */
  function DeleteFace(h: Human, face: FaceRef): (r: Human)
    ensures r.name == h.name
    ensures multiset(r.faces) == multiset(h.faces) - multiset{face}
  {
    h.(faces := RemoveFirst(h.faces, face))
  }

  /** The position of the first occurrence of `x` in `s`. */
  function FirstIndex(s: seq<FaceRef>, x: FaceRef): (i: nat)
    requires x in s
    ensures i < |s| && s[i] == x && x !in s[..i]
  {
    if s[0] == x then 0
    else
      var i := 1 + FirstIndex(s[1..], x);
      assert s[..i] == [s[0]] + s[1..][..i - 1];
      i
  }

  /** Removing the first occurrence at position `i` keeps everything before
      and after it, in order. */
  lemma {:induction false} RemoveFirstSplits(s: seq<FaceRef>, x: FaceRef, i: nat)
    requires i < |s| && s[i] == x && x !in s[..i]
    ensures RemoveFirst(s, x) == s[..i] + s[i + 1..]
    ensures Distinct(s) ==> x !in s[i + 1..]
  {
    if i > 0 {
      assert s[1..][..i - 1] == s[..i][1..];
      RemoveFirstSplits(s[1..], x, i - 1);
      assert s[..i] == [s[0]] + s[1..][..i - 1];
    }
  }

  /** `deleteFace` removes only the first occurrence and keeps the relative
      order of the remaining faces; an absent face leaves the list unchanged. */
  lemma DeleteFaceRemovesFirst(h: Human, face: FaceRef)
    ensures face !in h.faces ==> DeleteFace(h, face) == h
    ensures face in h.faces ==>
      var i := FirstIndex(h.faces, face);
      DeleteFace(h, face).faces == h.faces[..i] + h.faces[i + 1..]
  {
    if face in h.faces {
      RemoveFirstSplits(h.faces, face, FirstIndex(h.faces, face));
    }
  }

  /** Dropping one position from a duplicate-free list keeps it duplicate-free
      and removes the only copy of the dropped face. */
  lemma DropKeepsDistinct(s: seq<FaceRef>, i: nat)
    requires Distinct(s) && i < |s|
    ensures Distinct(s[..i] + s[i + 1..])
    ensures s[i] !in s[..i] + s[i + 1..]
  {
    var r := s[..i] + s[i + 1..];
    forall a | 0 <= a < |r| ensures r[a] == s[if a < i then a else a + 1] {
    }
  }

  /** `deleteFace` keeps the list duplicate-free, and on such a list no copy
      of the face survives. */
  lemma DeleteFaceKeepsDistinct(h: Human, face: FaceRef)
    requires Distinct(h.faces)
    ensures Distinct(DeleteFace(h, face).faces)
    ensures face !in DeleteFace(h, face).faces
  {
    if face in h.faces {
      var i := FirstIndex(h.faces, face);
      RemoveFirstSplits(h.faces, face, i);
      DropKeepsDistinct(h.faces, i);
    }
  }

  /** `addFace` of a face already present changes nothing, so adding twice is
      the same as adding once. */
  lemma AddFaceIdempotent(h: Human, face: FaceRef)
    ensures face in h.faces ==> AddFace(h, face) == h
    ensures AddFace(AddFace(h, face), face) == AddFace(h, face)
  {
  }

  /** Adding a face the person did not have and then deleting it restores the person. */
  lemma DeleteUndoesAdd(h: Human, face: FaceRef)
    requires face !in h.faces
    ensures DeleteFace(AddFace(h, face), face) == h
  {
    var s := h.faces + [face];
    assert s[..|h.faces|] == h.faces;
    RemoveFirstSplits(s, face, |h.faces|);
    assert s[|h.faces| + 1..] == [];
  }
}

=== FILE: recognition.dfy ===
/** `Recognizer`: trains an LBPH face model on every stored face and answers
    the nearest person's id, or -1 when the match is too distant. The LBPH
    library's `train` and `predict`, image decoding and the grey-scale
    conversion are foreign code and enter as function parameters. */
module Recognition {
  import opened Optional

  /** The library's answer for one image: the nearest label and its distance. */
  datatype Prediction = Prediction(predicted: int, confidence: real)

  /** The largest distance still accepted as a match. */
  const Threshold: real := 60.0

  /** The answer for a face matching nobody. */
  const Unknown: int := -1

  /** The model reference. It is unset until `init` runs; `init` first stores
      a fresh, untrained LBPH model and only then trains it. */
  datatype Recognizer<M> = Unset | Untrained | Trained(model: M)

  /** A stored face: its encoded image content and its owner's id (null when
      the face has no owner). */
  datatype StoredFace<B> = StoredFace(content: B, ownerId: Option<int>)

  /** Reading stored content: a decoded image, or the SQL or IO error raised
      while reading it. */
  datatype ReadOutcome<Img> = Decoded(image: Img) | SqlFailure | IoFailure

  /** The training corpus: images and labels, aligned index by index. */
  datatype Corpus<Img> = Corpus(images: seq<Img>, labels: seq<int>)

  /** Why `init` stopped: pushing the null image of an unreadable face, or
      dereferencing a missing owner, throws at that face; LBPH training can
      itself throw, for instance on an empty corpus. */
  datatype InitError = UnreadableImage(index: nat) | MissingOwner(index: nat) | TrainingFailed

  /** The model after `init`, and the failure that stopped it, if any. */
  datatype InitOutcome<M> = InitOutcome(state: Recognizer<M>, failure: Option<InitError>)

  /** `recognize` dereferences an unset model reference, or asks an untrained
      LBPH model to predict; both throw. */
  datatype RecognizeError = ModelNotInitialized | ModelNotTrained

  const TwoTo31: int := 0x8000_0000

  /** `Long.intValue`: keeps the low 32 bits as a signed value. */
  function ToInt32(v: int): (r: int)
    ensures -TwoTo31 <= r < TwoTo31
    ensures (v - r) % (2 * TwoTo31) == 0
    ensures -TwoTo31 <= v < TwoTo31 ==> r == v
  {
    (v + TwoTo31) % (2 * TwoTo31) - TwoTo31
  }

  /** `faceToMat`: the grey image decoded from the stored content, or null
      when reading it fails with an SQL or IO error. */
  function FaceToMat<B, Img>(content: B, read: B -> ReadOutcome<Img>, toGray: Img -> Img): (r: Option<Img>)
    ensures r.None? <==> (read(content).SqlFailure? || read(content).IoFailure?)
    ensures r.Some? ==> r.value == toGray(read(content).image)
  {
    match read(content)
    case Decoded(image) => Some(toGray(image))
    case SqlFailure => None
    case IoFailure => None
  }

  /** A face that passes through the loop of `init`: its content decodes and
      it has an owner. */
  predicate Usable<B, Img>(face: StoredFace<B>, read: B -> ReadOutcome<Img>)
  {
    read(face.content).Decoded? && face.ownerId.Some?
  }

  /** Every face passes through the loop of `init`. */
  predicate AllUsable<B, Img>(faces: seq<StoredFace<B>>, read: B -> ReadOutcome<Img>)
  {
    forall i :: 0 <= i < |faces| ==> Usable(faces[i], read)
  }

  /** The loop of `init` over all stored faces. Each face converts its content,
      pushes the image and puts its owner's id as a 32-bit label; a null image
      or a missing owner throws at that face. */
  function BuildCorpus<B, Img>(faces: seq<StoredFace<B>>, read: B -> ReadOutcome<Img>, toGray: Img -> Img)
    : (r: Result<Corpus<Img>, InitError>)
    ensures r.Success? <==> AllUsable(faces, read)
    ensures r.Success? ==> |r.value.images| == |r.value.labels| == |faces|
    ensures r.Success? ==> forall i :: 0 <= i < |faces| ==>
      && Some(r.value.images[i]) == FaceToMat(faces[i].content, read, toGray)
      && r.value.labels[i] == ToInt32(faces[i].ownerId.value)
    ensures r.Failure? ==>
      && !r.error.TrainingFailed?
      && r.error.index < |faces|
      && !Usable(faces[r.error.index], read)
      && (r.error.UnreadableImage? <==> FaceToMat(faces[r.error.index].content, read, toGray).None?)
      && forall j :: 0 <= j < r.error.index ==> Usable(faces[j], read)
    decreases |faces|
  {
    if |faces| == 0 then Success(Corpus([], []))
    else
      var last := faces[|faces| - 1];
      match BuildCorpus(faces[..|faces| - 1], read, toGray)
      case Failure(e) => Failure(e)
      case Success(c) =>
        match FaceToMat(last.content, read, toGray)
        case None => Failure(UnreadableImage(|faces| - 1))
        case Some(image) =>
          match last.ownerId
          case None => Failure(MissingOwner(|faces| - 1))
          case Some(id) => Success(Corpus(c.images + [image], c.labels + [ToInt32(id)]))
  }

  /** `init`: builds the corpus from every stored face, stores a fresh LBPH
      model in the reference and trains it. An exception while building the
      corpus leaves the previous model in place; an exception from training
      leaves the fresh, untrained model in place. */
  function Init<B, Img, M>(current: Recognizer<M>, faces: seq<StoredFace<B>>, read: B -> ReadOutcome<Img>,
                           toGray: Img -> Img, train: (seq<Img>, seq<int>) -> Option<M>): (r: InitOutcome<M>)
    ensures r.failure.Some? && !r.failure.value.TrainingFailed? <==> !AllUsable(faces, read)
    ensures !AllUsable(faces, read) ==> r.state == current
    ensures r.failure == Some(TrainingFailed) ==> r.state == Untrained
    ensures AllUsable(faces, read) ==>
      var c := BuildCorpus(faces, read, toGray).value;
      && (r.failure.None? <==> train(c.images, c.labels).Some?)
      && (r.failure.None? ==> r.state == Trained(train(c.images, c.labels).value))
  {
    match BuildCorpus(faces, read, toGray)
    case Failure(e) => InitOutcome(current, Some(e))
    case Success(c) =>
      match train(c.images, c.labels)
      case None => InitOutcome(Untrained, Some(TrainingFailed))
      case Some(model) => InitOutcome(Trained(model), None)
  }

  /** The acceptance gate: a prediction farther than the threshold is unknown. */
  function Gate(p: Prediction): (answer: int)
    ensures answer == Unknown || answer == p.predicted
    ensures p.confidence > Threshold ==> answer == Unknown
    ensures p.confidence <= Threshold ==> answer == p.predicted
  {
    if p.confidence > Threshold then Unknown else p.predicted
  }

  /** `recognize`: predicts on the grey image with the current model and
      applies the acceptance gate. */
  function Recognize<Img, M>(state: Recognizer<M>, face: Img, toGray: Img -> Img,
                             predict: (M, Img) -> Prediction): (r: Result<int, RecognizeError>)
    ensures r.Failure? <==> !state.Trained?
    ensures state.Unset? ==> r == Failure(ModelNotInitialized)
    ensures state.Trained? ==>
      var p := predict(state.model, toGray(face));
      && (p.confidence > Threshold ==> r.value == Unknown)
      && (p.confidence <= Threshold ==> r.value == p.predicted)
  {
    match state
    case Unset => Failure(ModelNotInitialized)
    case Untrained => Failure(ModelNotTrained)
    case Trained(model) => Success(Gate(predict(model, toGray(face))))
  }

  /** There is exactly one label per stored face, aligned with the images:
      for an owner id within int range, the i-th label is that owner id. */
  lemma CorpusAligned<B, Img>(faces: seq<StoredFace<B>>, read: B -> ReadOutcome<Img>, toGray: Img -> Img, i: nat)
    requires AllUsable(faces, read)
    requires i < |faces|
    requires -TwoTo31 <= faces[i].ownerId.value < TwoTo31
    ensures var c := BuildCorpus(faces, read, toGray).value;
      && |c.labels| == |c.images| == |faces|
      && c.labels[i] == faces[i].ownerId.value
      && c.images[i] == toGray(read(faces[i].content).image)
  {
  }

  /** An unreadable face preceded only by usable faces (decoded, with an
      owner) stops `init` there, and the previous model stays. */
  lemma UnreadableFaceAbortsInit<B, Img, M>(current: Recognizer<M>, faces: seq<StoredFace<B>>,
                                            read: B -> ReadOutcome<Img>, toGray: Img -> Img,
                                            train: (seq<Img>, seq<int>) -> Option<M>, i: nat)
    requires i < |faces| && !read(faces[i].content).Decoded?
    requires forall j :: 0 <= j < i ==> Usable(faces[j], read)
    ensures BuildCorpus(faces, read, toGray) == Failure(UnreadableImage(i))
    ensures Init(current, faces, read, toGray, train) == InitOutcome(current, Some(UnreadableImage(i)))
  {
  }

  /** Once the corpus is built, nothing from an earlier training survives
      `init`: the new state is the same whatever model was there before. */
  lemma InitDiscardsPrevious<B, Img, M>(a: Recognizer<M>, b: Recognizer<M>, faces: seq<StoredFace<B>>,
                                        read: B -> ReadOutcome<Img>, toGray: Img -> Img,
                                        train: (seq<Img>, seq<int>) -> Option<M>)
    requires AllUsable(faces, read)
    ensures Init(a, faces, read, toGray, train).state == Init(b, faces, read, toGray, train).state
  {
  }

  /** When training throws, the reference already holds the fresh model, so
      the previous model is lost and every later `recognize` fails. */
  lemma FailedTrainingDropsModel<B, Img, M>(current: Recognizer<M>, faces: seq<StoredFace<B>>,
                                            read: B -> ReadOutcome<Img>, toGray: Img -> Img,
                                            train: (seq<Img>, seq<int>) -> Option<M>,
                                            predict: (M, Img) -> Prediction, face: Img)
    requires AllUsable(faces, read)
    requires var c := BuildCorpus(faces, read, toGray).value; train(c.images, c.labels).None?
    ensures Init(current, faces, read, toGray, train) == InitOutcome(Untrained, Some(TrainingFailed))
    ensures Recognize(Init(current, faces, read, toGray, train).state, face, toGray, predict) == Failure(ModelNotTrained)
  {
  }

  /** With an empty face store, and a training that rejects empty data as
      LBPH does, `init` leaves an untrained model and `recognize` fails. */
  lemma EmptyStoreLeavesUntrained<B, Img, M>(current: Recognizer<M>, read: B -> ReadOutcome<Img>,
                                             toGray: Img -> Img, train: (seq<Img>, seq<int>) -> Option<M>,
                                             predict: (M, Img) -> Prediction, face: Img)
    requires train([], []) == None
    ensures Init(current, [], read, toGray, train) == InitOutcome(Untrained, Some(TrainingFailed))
    ensures Recognize(Init(current, [], read, toGray, train).state, face, toGray, predict).Failure?
  {
  }

  /** After a successful `init`, `recognize` answers from the freshly trained
      model only. */
  lemma RecognizeAfterInit<B, Img, M>(current: Recognizer<M>, faces: seq<StoredFace<B>>,
                                      read: B -> ReadOutcome<Img>, toGray: Img -> Img,
                                      train: (seq<Img>, seq<int>) -> Option<M>,
                                      predict: (M, Img) -> Prediction, face: Img)
    requires AllUsable(faces, read)
    requires var c := BuildCorpus(faces, read, toGray).value; train(c.images, c.labels).Some?
    ensures var c := BuildCorpus(faces, read, toGray).value;
      Recognize(Init(current, faces, read, toGray, train).state, face, toGray, predict)
        == Success(Gate(predict(train(c.images, c.labels).value, toGray(face))))
  {
  }

  /** The gate accepts exactly the predictions within the threshold, the
      boundary value 60 included, whenever the library's label is not itself -1. */
  lemma GateAcceptsIff(p: Prediction)
    requires p.predicted != Unknown
    ensures Gate(p) == p.predicted <==> p.confidence <= Threshold
    ensures Gate(Prediction(p.predicted, 60.0)) == p.predicted
    ensures Gate(Prediction(p.predicted, 60.5)) == Unknown
  {
  }
}
